=== FILE: README.md ===
# Gym countdown: a verified model of the interval timer and daily progress

This project models the logic of a small fitness web application in Dafny. It covers:

- **The interval timer.** A 45-second WORK phase alternates with a 15-second REST phase across a number of sets. The top-level `GymTimer` takes the set count as a prop. The client `GymTimer` fixes five sets and adds an estimate of the calories burned during WORK. Both variants run on one machine, `IntervalTimer`. Its `Config` carries the set count and an optional `caloriesPerSet`. `BaseTimer(n)` is the first variant; `ClientTimer(c)` is the second.
- **The daily progress record** (`DailyProgress`). This is the page's `handleWorkoutComplete`. Each finished workout adds one to today's count, clamped to the daily target. Today is added to the completed dates when that count reaches the target.
- **The target control** (`TargetWorkout`). It has a "-" button clamped at one and a "+" button.
- **The month calendar** (`WorkoutCalendar`). Day keys are `YYYY-MM-DD` strings. The month length comes from `new Date(year, month + 1, 0)`. Each cell is classified as completed, today or plain.

The React effects are modelled as discrete steps:

- `Tick` is the one-second interval callback.
- `Transition` is the effect that fires once the countdown sits at zero while the timer runs.
- `TimerRun.Second` is one elapsed second: a tick, then the effect.
- `TimerRun.Run` is an uninterrupted run of k seconds. It records every call of `onWorkoutComplete` together with its argument.

`Math.round(p / q)` is modelled exactly in integers as `floor((2p + q) / (2q))` (`JsMath.RoundDiv`). For integer inputs, the fractions the code rounds are k/9, k/45 and k/3. None of these is ever one half, so for rates below 2^51 floating-point error cannot change a result.

The model records these consequences of the code, each proved as stated:

- **Completion time.** A run completes after exactly `totalSets * (45 + 15)` seconds. The last set's REST is counted down like every other REST before the effect stops the timer (src/GymTimer.tsx:81-89; `TimerRun.WholeWorkout`, `TimerRun.NoEarlyCompletion`).
- **Calories per WORK phase.** The client timer's `caloriesPerSet` is documented as the calories of one 45-second set (client/src/GymTimer.tsx:8). One WORK phase in fact credits `8 * round(5c/45) + round(c/45)`, not c: the last five seconds of WORK (the countdown from 5 to 0) are credited as one second, because the ticks landing on 4, 3, 2 and 1 credit nothing and the tick landing on 0 credits one second's share. With c = 10 a phase credits 8; with c = 45 it credits 41 (`TimerRun.WorkPhaseShortfall`).
- **Set counter and restart.** For a set count of at least one that stays fixed during the run, the set counter never goes past the set count. So the start button's `currentSet > totalSets` guard (src/GymTimer.tsx:200) never disables it. Starting again after completion makes the effect fire at once and call `onWorkoutComplete` a second time (`TimerRun.RestartAfterWorkout`). With a set count of 0, the guard holds from the start and the button does nothing (`IntervalTimer.Toggle`).
- **Target values.** Only the "-" button clamps the target (client/src/TargetWorkout.tsx:17). A stored target is taken as `Number` reads it (src/App.tsx:18), so a target of 0 or below can reach the page and the timer.
- **Completed dates after reload.** The progress map and the target are written back (src/App.tsx:21-27); the completed dates are not. After a reload, a day whose count already reached the target is never marked completed again, as long as the target is not raised above that count (`DailyProgress.PersistRoundTrip`, `DailyProgress.NoMarkAfterTarget`; `DailyProgress.RaisedTargetMarksAgain` shows the raised-target case).

## Model

| member | source | states |
|---|---|---|
| `IntervalTimer.Tick` | client/src/GymTimer.tsx:85-105 | The countdown drops by one and never below zero. Phase, set and running flag are untouched. In WORK, landing on a positive multiple of five adds round(5c/45), and the last second adds round(c/45). REST and the base variant add nothing. Calories never fall when c ≥ 0. The state invariant is kept. |
| `IntervalTimer.Transition` | src/GymTimer.tsx:73-91 | Fires only when running and at zero; otherwise nothing changes. WORK goes to REST with 15 s and the same set. REST before the last set goes to the next set's WORK with 45 s. After the last set it stops and calls the completion callback, passing the calorie total in the client variant. The invariant is kept. |
| `IntervalTimer.Toggle` | src/GymTimer.tsx:104 | Flips only the running flag. The button is disabled when the set counter exceeds the set count (line 200), and then nothing changes. The invariant is kept. |
| `IntervalTimer.Reset` | client/src/GymTimer.tsx:153-159 | Gives WORK, 45 s, set 1, not running, 0 calories. The result satisfies the invariant. |
| `IntervalTimer.Skip` | src/GymTimer.tsx:111-125 | Applies the WORK→REST and next-set rules whether or not the timer runs. On the last set's REST it only clears the running flag: seconds and phase stay and nothing is reported. Calories never change. |
| `IntervalTimer.Percent` | src/GymTimer.tsx:127-137 | Always within 0..100. It is 0 when the countdown is at the phase length and 100 when it is at zero. Within the phase it is the elapsed share (total − seconds)/total · 100 rounded half up. |
| `IntervalTimer.PercentMonotone` | src/GymTimer.tsx:127-137 | Fewer seconds left in a phase never gives a lower progress figure. |
| `IntervalTimer.TickRaisesPercent` | src/GymTimer.tsx:59-62 | A tick never lowers the progress figure. |
| `IntervalTimer.ToggleTwice` | src/GymTimer.tsx:104 | Two presses of start/pause restore the state. |
| `IntervalTimer.ResetIdempotent` | src/GymTimer.tsx:105-110 | Reset yields the same state whatever came before, and resetting again changes nothing. |
| `IntervalTimer.SkipMatchesExpiry` | src/GymTimer.tsx:111-125 | For a running timer at zero, skip gives the same state as the natural transition. Only the natural transition reports completion, and only on the last set's REST. |
| `IntervalTimer.ClientMatchesBase` | client/src/GymTimer.tsx:117-136 | The calorie-tracking variant makes the same phase and set moves as the base machine with five sets, under tick, transition, skip and toggle. |
| `TimerRun.Second` | src/GymTimer.tsx:49-91 | Nothing happens while paused. A second keeps the invariant and never lowers calories. A completion leaves the timer stopped and reports the current calorie total. |
| `TimerRun.RunPreservesValid` | src/GymTimer.tsx:58-91 | Every state an uninterrupted run reaches satisfies the invariant, and calories never fall along the way. |
| `TimerRun.RunStopped` | src/GymTimer.tsx:49-56 | A stopped timer stays as it is and reports nothing, however long it is left. |
| `TimerRun.PhaseGainRate` | client/src/GymTimer.tsx:86-101 | The calories credited depend only on the calorie rate, never on the set count. |
| `TimerRun.PhaseGainWork` | client/src/GymTimer.tsx:86-101 | Over the last s seconds of WORK the credit is ⌊(s−1)/5⌋·round(5c/45) + round(c/45). |
| `TimerRun.WorkPhaseCaloriesValue` | client/src/GymTimer.tsx:90-101 | One full WORK phase credits 8·round(5c/45) + round(c/45). It credits 0 without calorie tracking and never a negative amount. |
| `TimerRun.CountDown` | src/GymTimer.tsx:58-63 | Before zero, k seconds lower the countdown by k, credit that stretch's calories and report nothing. |
| `TimerRun.PhaseEnd` | src/GymTimer.tsx:58-91 | After exactly as many seconds as remain, the phase/set effect fires on the state at zero with the phase's calories credited. |
| `TimerRun.WorkToRest` | src/GymTimer.tsx:78-80 | A full WORK phase leads to REST with 15 s in the same set, with nothing reported. |
| `TimerRun.RestToEnd` | src/GymTimer.tsx:81-90 | A full REST phase credits nothing and ends after 15 s. Before the last set it leads to the next set's WORK with 45 s and reports nothing. After the last set it stops at zero and reports the calorie total once. Nothing is reported one second before its end. |
| `TimerRun.FullSet` | src/GymTimer.tsx:82-85 | A set that is not the last one leads, 60 s later, to the next set's WORK with 45 s, with nothing reported. |
| `TimerRun.LastSet` | src/GymTimer.tsx:86-89 | The last set ends 60 s later stopped, in REST at zero, with one completion carrying the calorie total. |
| `TimerRun.SetQuiet` | src/GymTimer.tsx:58-91 | Within the first 59 s of any set nothing is reported. |
| `TimerRun.OneMoreSet` | src/GymTimer.tsx:82-85 | A set that is not the last one, followed by a run of the later sets that ends the workout, ends it 60 s and one WORK phase's calories later. |
| `TimerRun.RemainingSets` | src/GymTimer.tsx:58-91 | From the start of set n, the workout ends after exactly (totalSets − n + 1)·60 s, stopped in REST at zero, with one completion and one WORK phase's calories added per remaining set. |
| `TimerRun.RemainingSetsQuiet` | src/GymTimer.tsx:58-91 | From the start of set n, nothing is reported up to one second before the workout ends. |
| `TimerRun.CaloriesOverSetsProduct` | client/src/GymTimer.tsx:90-101 | Adding one WORK phase's calories per set, n times, gives n times a phase's calories. |
| `TimerRun.CompletionsGrow` | src/GymTimer.tsx:58-91 | The callbacks of a shorter run are a prefix of a longer run's. |
| `TimerRun.WholeWorkout` | src/GymTimer.tsx:58-91 | From reset and start, the callback is reached after exactly totalSets·(45+15) ticks, once, with totalSets phases' worth of calories, and the timer ends stopped in the last set's REST at zero. |
| `TimerRun.NoEarlyCompletion` | src/GymTimer.tsx:58-91 | From reset and start, the callback is not reached at any second before totalSets·(45+15). |
| `TimerRun.QuietAfterWorkout` | src/GymTimer.tsx:86-89 | Once the workout has completed, leaving the timer alone calls the callback no more. |
| `TimerRun.ClientWorkoutCalories` | client/src/GymTimer.tsx:130-134 | The client variant's callback receives 5·(8·round(5c/45) + round(c/45)), the total accumulated at that moment. |
| `TimerRun.WorkPhaseShortfall` | client/src/GymTimer.tsx:97-101 | A WORK phase credits 8 kcal when c = 10 and 41 when c = 45, not c. |
| `TimerRun.RestartAfterWorkout` | src/GymTimer.tsx:197-203 | After completion the start button is still enabled. Starting again makes the effect fire at once and report completion again. |
| `TimerRun.Started` | src/GymTimer.tsx:14-17 | Reset followed by start gives WORK, 45 s, set 1, running, 0 calories, for any set count of at least one. |
| `DailyProgress.LoadNothingStored` | src/App.tsx:7-19 | With nothing stored, the start-up read leaves target 5 and empty progress and completed dates. |
| `DailyProgress.PersistRoundTrip` | src/App.tsx:14-27 | Reading back what the page writes restores the progress map and the target; the completed dates come back empty. |
| `DailyProgress.RecordCompletion` | src/App.tsx:29-40 | Today's count becomes min(old + 1, target), with an absent entry read as 0, so it never exceeds the target. Every other date keeps its entry. Today is appended iff old + 1 equals the target and today is not already listed; otherwise the list is unchanged. No duplicates are introduced. |
| `DailyProgress.RecordManyFromEmpty` | src/App.tsx:29-40 | With a target t ≥ 1 and neither a count nor a completed-date entry for today, k completions give count min(k, t). The earlier completed dates stay in order, and today is appended exactly once from the t-th completion on, and not before. |
| `DailyProgress.TargetReached` | src/App.tsx:29-40 | On a fresh page, t completions give count t and list today once. Further completions change neither. |
| `DailyProgress.NoMarkAfterTarget` | src/App.tsx:33-39 | A day whose count is already at or above the target keeps the count at the target and is never appended again, as long as the target is not raised above that count. |
| `DailyProgress.RaisedTargetMarksAgain` | src/App.tsx:29-40 | After a reload that restored a day's count as the target, raising the target by one with "+" lets the next workout mark that day completed again. |
| `TargetWorkout.Decrement` | client/src/TargetWorkout.tsx:17 | The emitted target is always at least 1, and for t ≥ 1 never above t. It is t − 1 above one and 1 at one. |
| `TargetWorkout.Increment` | client/src/TargetWorkout.tsx:26 | The emitted target is t + 1 for every t. For t ≥ 1 a following "-" gives back t. |
| `TargetWorkout.DecrementThenIncrement` | client/src/TargetWorkout.tsx:17-26 | "-" then "+" restores any target above one and turns 1 into 2. |
| `WorkoutCalendar.DaysInMonth` | client/src/WorkoutCalendar.tsx:13 | Between 28 and 31. February has 29 days exactly in leap years of the constructor's year and 28 otherwise. The other months have at least 30, and 31 exactly in months 0, 2, 4, 6, 7, 9, 11. Years 0–99 use the Gregorian length of 1900–1999. |
| `WorkoutCalendar.YearLength` | client/src/WorkoutCalendar.tsx:13 | The twelve month lengths add up to 366 in a leap year and 365 otherwise. |
| `WorkoutCalendar.Days` | client/src/WorkoutCalendar.tsx:14 | The list is exactly 1, 2, …, n in ascending order. |
| `WorkoutCalendar.PadStart2` | client/src/WorkoutCalendar.tsx:24-27 | Zeros are put in front up to two characters. The original string is the suffix, and strings of two or more characters are unchanged. |
| `WorkoutCalendar.TwoDigits` | client/src/WorkoutCalendar.tsx:24-27 | A number below 100, zero-padded, is its tens digit followed by its units digit. |
| `WorkoutCalendar.PaddedValue` | client/src/WorkoutCalendar.tsx:24-27 | A number below 100, zero-padded, is two characters long and reads back as that number. |
| `WorkoutCalendar.DecimalRoundTrip` | client/src/WorkoutCalendar.tsx:24 | The decimal string of any integer reads back as that integer. |
| `WorkoutCalendar.KeyFields` | client/src/WorkoutCalendar.tsx:24-27 | A key is the year's decimal string, a dash, the 1-based month (month + 1) as two digits, a dash, and the day as two digits. |
| `WorkoutCalendar.KeyRoundTrip` | client/src/WorkoutCalendar.tsx:24-27 | A key reads back as the year, 0-based month and day it was built from. |
| `WorkoutCalendar.KeysDistinct` | client/src/WorkoutCalendar.tsx:24-27 | Different (year, month, day) triples give different keys. |
| `WorkoutCalendar.KeyLength` | client/src/WorkoutCalendar.tsx:24-27 | For a four-digit year the key is 10 characters long. |
| `WorkoutCalendar.DayCell` | client/src/WorkoutCalendar.tsx:24-43 | A cell is completed iff its key is listed. It gets the today outline iff it is not completed and its key equals today, so completed wins. Progress is the stored count, or 0 when absent. The label is "✓" iff completed, otherwise the day number. |
| `WorkoutCalendar.MonthCells` | client/src/WorkoutCalendar.tsx:13-43 | There is one cell per day of the month, in order, and every key is distinct. At most one cell carries the today outline. |

## Left out

- Beep playback (`playBeep`, the audio context and its fallback) is left out. It is a browser side effect with no effect on the state.
- `setInterval` / `clearInterval`, effect clean-up and the unmount effect are replaced by the discrete `Second` step. The model assumes the phase/set effect runs before the next interval fires.
- In development mode React may call a state updater twice. The client tick calls `setTotalCaloriesBurned` inside the `setSeconds` updater, so it could credit twice. The model runs every updater once.
- A `totalSets` prop that changes while the timer runs is not modelled. `Config` is fixed for a run, and the invariant `currentSet <= totalSets` is stated for a fixed config. `Transition` and `Skip` accept any set count.
- `localStorage` writes and `JSON.parse` are I/O. `Load` takes the stored values as already-decoded optional values, and a malformed stored payload is not modelled.
- `new Date()`, `toISOString()` and `toLocaleString` (the month name) are clock reads. Today's key, the year and the 0-based month are parameters. Today is taken in UTC and the calendar in local time, so nothing relates them.
- `DaysInMonth` takes a 0-based month in 0..11, because `getMonth` never returns anything else. The Date constructor's overflow into other years is not modelled.
- `caloriesPerSet` is an integer in the model. Fractional rates and `NaN` targets are not modelled. Rates of 2^51 or more are not modelled either: there `(c / 45) * 5` can land exactly on a half after double rounding, so the browser's result can differ from `JsMath.RoundDiv(5 * c, 45)`.
- The progress-bar width, the SVG stroke offset and all markup are float rendering and layout.
- The `totalSets = 5` default of the top-level timer's prop (src/GymTimer.tsx:10) is not modelled: `BaseTimer` always takes the count, and the page always passes one (src/App.tsx:57).
- The backend passthrough service and the mock calendar data are outside the timer and progress logic.

=== FILE: calendar.dfy ===
/** The month view of the workout calendar: one cell per day of the current
    month, keyed by a `YYYY-MM-DD` date string, showing whether that day's
    target was reached and how many workouts it recorded. */
module WorkoutCalendar {
  import opened Wrappers
  import opened ProgressMap

  // ---------------------------------------------------------------------
  // Month lengths

  predicate IsLeapYear(y: int) {
    y % 4 == 0 && (y % 100 != 0 || y % 400 == 0)
  }

  /** The year the `Date(year, month, day)` constructor actually uses: it
      reads the years 0 to 99 as 1900 to 1999. */
  function ConstructorYear(year: int): (y: int)
    ensures 0 <= year <= 99 ==> y == 1900 + year
    ensures (year < 0 || year > 99) ==> y == year
  {
    if 0 <= year <= 99 then 1900 + year else year
  }

  /** The Gregorian length of a month; `month` counts from 0 as `getMonth`
      does. */
  function MonthLength(y: int, month: int): int
    requires 0 <= month < 12
  {
    if month == 1 then (if IsLeapYear(y) then 29 else 28)
    else if month == 3 || month == 5 || month == 8 || month == 10 then 30
    else 31
  }

  /** `new Date(year, month + 1, 0).getDate()`: day 0 of the next month is
      the last day of this one, so this is the length of `month`. */
  function DaysInMonth(year: int, month: int): (n: int)
    requires 0 <= month < 12
    ensures 28 <= n <= 31
    ensures month == 1 ==> n <= 29
    ensures month == 1 ==> (n == 29 <==> IsLeapYear(ConstructorYear(year)))
    ensures month != 1 ==> n >= 30
    ensures n == 31 <==> month in {0, 2, 4, 6, 7, 9, 11}
    ensures (year < 0 || year > 99) ==> n == MonthLength(year, month)
    ensures 0 <= year <= 99 ==> n == MonthLength(1900 + year, month)
  {
    MonthLength(ConstructorYear(year), month)
  }

  /** The days of the year before the start of `month`. */
  function DaysBeforeMonth(y: int, month: nat): int
    requires month <= 12
  {
    if month == 0 then 0 else DaysBeforeMonth(y, month - 1) + MonthLength(y, month - 1)
  }

  /** The twelve month lengths add up to the length of the Gregorian year. */
  lemma {:induction false} YearLength(y: int)
    ensures DaysBeforeMonth(y, 12) == if IsLeapYear(y) then 366 else 365
  {
    var feb := if IsLeapYear(y) then 29 else 28;
    assert DaysBeforeMonth(y, 1) == 31;
    assert DaysBeforeMonth(y, 2) == 31 + feb;
    assert DaysBeforeMonth(y, 3) == 62 + feb;
    assert DaysBeforeMonth(y, 4) == 92 + feb;
    assert DaysBeforeMonth(y, 5) == 123 + feb;
    assert DaysBeforeMonth(y, 6) == 153 + feb;
    assert DaysBeforeMonth(y, 7) == 184 + feb;
    assert DaysBeforeMonth(y, 8) == 215 + feb;
    assert DaysBeforeMonth(y, 9) == 245 + feb;
    assert DaysBeforeMonth(y, 10) == 276 + feb;
    assert DaysBeforeMonth(y, 11) == 306 + feb;
  }

  /** `Array.from({ length: n }, (_, i) => i + 1)`. */
  function Days(n: nat): (days: seq<int>)
    ensures |days| == n
    ensures forall i :: 0 <= i < n ==> days[i] == i + 1
    ensures forall i, j :: 0 <= i < j < n ==> days[i] < days[j]
  {
    seq(n, i => i + 1)
  }

  // ---------------------------------------------------------------------
  // Decimal strings and date keys

  predicate IsDigit(c: char) {
    '0' <= c <= '9'
  }

  function DigitChar(d: int): (c: char)
    requires 0 <= d <= 9
    ensures IsDigit(c)
    ensures c as int - '0' as int == d
  {
    ('0' as int + d) as char
  }

  /** `String(n)` for a natural number: its decimal digits, most significant
      first, without leading zeros. */
  function NatDigits(n: nat): (s: string)
    ensures |s| >= 1
    ensures forall i :: 0 <= i < |s| ==> IsDigit(s[i])
    ensures |s| > 1 ==> s[0] != '0'
    ensures n < 10 <==> |s| == 1
  {
    if n < 10 then [DigitChar(n)] else NatDigits(n / 10) + [DigitChar(n % 10)]
  }

  /** The number a string of decimal digits denotes. */
  function DigitsValue(s: string): int
  {
    if s == [] then 0 else DigitsValue(s[..|s| - 1]) * 10 + (s[|s| - 1] as int - '0' as int)
  }

  lemma {:induction false} DigitsRoundTrip(n: nat)
    ensures DigitsValue(NatDigits(n)) == n
  {
    var s := NatDigits(n);
    if n >= 10 {
      DigitsRoundTrip(n / 10);
      assert s[..|s| - 1] == NatDigits(n / 10);
    } else {
      assert s[..0] == [];
    }
  }

  /** `String(n)` for an integer. */
  function DecimalString(n: int): (s: string)
    ensures |s| >= 1
    ensures n >= 0 ==> s == NatDigits(n)
    ensures n < 0 ==> s[0] == '-' && s[1..] == NatDigits(-n)
  {
    if n < 0 then "-" + NatDigits(-n) else NatDigits(n)
  }

  function ParseDecimal(s: string): int {
    if |s| > 0 && s[0] == '-' then -DigitsValue(s[1..]) else DigitsValue(s)
  }

  /** Reading the decimal string of an integer back gives that integer. */
  lemma DecimalRoundTrip(n: int)
    ensures ParseDecimal(DecimalString(n)) == n
  {
    if n < 0 {
      DigitsRoundTrip(-n);
    } else {
      DigitsRoundTrip(n);
    }
  }

  /** Four-digit years print as four characters. */
  lemma FourDigitYear(year: int)
    requires 1000 <= year <= 9999
    ensures |DecimalString(year)| == 4
  {
    assert |NatDigits(year / 1000)| == 1;
    assert |NatDigits(year / 100)| == 2 by {
      assert year / 100 / 10 == year / 1000;
    }
    assert |NatDigits(year / 10)| == 3 by {
      assert year / 10 / 10 == year / 100;
    }
  }

  /** `s.padStart(2, "0")`: zeros in front up to two characters. */
  function PadStart2(s: string): (r: string)
    ensures |s| >= 2 ==> r == s
    ensures |s| < 2 ==> |r| == 2
    ensures |r| >= |s| && r[|r| - |s|..] == s
    ensures forall i :: 0 <= i < |r| - |s| ==> r[i] == '0'
  {
    if |s| >= 2 then s else seq(2 - |s|, _ => '0') + s
  }

  /** A number below 100, zero-padded, is its tens digit then its units digit. */
  lemma TwoDigits(d: int)
    requires 0 <= d < 100
    ensures PadStart2(DecimalString(d)) == [DigitChar(d / 10), DigitChar(d % 10)]
  {
    if d >= 10 {
      assert NatDigits(d) == NatDigits(d / 10) + [DigitChar(d % 10)];
    }
  }

  /** The key of a calendar day: `${year}-${MM}-${DD}` with the 1-based month
      and the day zero-padded to two digits. */
  function DateKey(year: int, month: int, day: int): string {
    DecimalString(year) + "-" + PadStart2(DecimalString(month + 1)) + "-" + PadStart2(DecimalString(day))
  }

  /** Reads a key back into (year, 0-based month, day). */
  function ParseKey(key: string): Option<(int, int, int)> {
    if |key| < 6 then None
    else Some((ParseDecimal(key[..|key| - 6]),
               DigitsValue(key[|key| - 5..|key| - 3]) - 1,
               DigitsValue(key[|key| - 2..])))
  }

  /** Two digits read back as the number they were printed from. */
  lemma TwoDigitsValue(d: int)
    requires 0 <= d < 100
    ensures DigitsValue([DigitChar(d / 10), DigitChar(d % 10)]) == d
  {
    var s := [DigitChar(d / 10), DigitChar(d % 10)];
    var t := [DigitChar(d / 10)];
    assert s[..1] == t && t[..0] == [];
    assert DigitsValue(t) == d / 10;
    assert DigitsValue(s) == DigitsValue(t) * 10 + d % 10;
  }

  /** A zero-padded number below 100 reads back as that number. */
  lemma PaddedValue(d: int)
    requires 0 <= d < 100
    ensures |PadStart2(DecimalString(d))| == 2
    ensures DigitsValue(PadStart2(DecimalString(d))) == d
  {
    TwoDigits(d);
    TwoDigitsValue(d);
  }

  /** Where the fields of `y-mm-dd` sit when both mm and dd have two
      characters: counted from the end of the string. */
  lemma Layout(key: string, y: string, mm: string, dd: string)
    requires |mm| == 2 && |dd| == 2 && key == y + "-" + mm + "-" + dd
    ensures |key| == |y| + 6
    ensures key[..|key| - 6] == y
    ensures key[|key| - 6] == '-' && key[|key| - 3] == '-'
    ensures key[|key| - 5..|key| - 3] == mm
    ensures key[|key| - 2..] == dd
  {
  }

  /** The three fields of a key sit at fixed offsets from its end, so
      reading a key back reads each field on its own. */
  lemma ParseFields(y: string, mm: string, dd: string)
    requires |mm| == 2 && |dd| == 2
    ensures ParseKey(y + "-" + mm + "-" + dd) == Some((ParseDecimal(y), DigitsValue(mm) - 1, DigitsValue(dd)))
  {
    Layout(y + "-" + mm + "-" + dd, y, mm, dd);
  }

  /** A key determines its day: reading it back yields the year, month and
      day it was built from. */
  lemma KeyRoundTrip(year: int, month: int, day: int)
    requires 0 <= month < 12 && 0 <= day < 100
    ensures ParseKey(DateKey(year, month, day)) == Some((year, month, day))
  {
    var y := DecimalString(year);
    var mm := PadStart2(DecimalString(month + 1));
    var dd := PadStart2(DecimalString(day));
    PaddedValue(month + 1);
    PaddedValue(day);
    DecimalRoundTrip(year);
    ParseFields(y, mm, dd);
  }

  /** A key spelled out: the year's decimal string, a dash, the 1-based
      month as two digits, a dash, and the day as two digits. */
  lemma KeyDigits(year: int, month: int, day: int)
    requires 0 <= month < 12 && 0 <= day < 100
    ensures DateKey(year, month, day)
            == DecimalString(year) + "-" + [DigitChar((month + 1) / 10), DigitChar((month + 1) % 10)]
               + "-" + [DigitChar(day / 10), DigitChar(day % 10)]
  {
    TwoDigits(month + 1);
    TwoDigits(day);
  }

  /** The layout of a key, field by field, counted from its end. */
  lemma KeyFields(year: int, month: int, day: int)
    requires 0 <= month < 12 && 0 <= day < 100
    ensures var key := DateKey(year, month, day);
            && |key| == |DecimalString(year)| + 6
            && key[..|key| - 6] == DecimalString(year)
            && key[|key| - 6] == '-' && key[|key| - 3] == '-'
            && key[|key| - 5..|key| - 3] == [DigitChar((month + 1) / 10), DigitChar((month + 1) % 10)]
            && key[|key| - 2..] == [DigitChar(day / 10), DigitChar(day % 10)]
  {
    KeyDigits(year, month, day);
    Layout(DateKey(year, month, day), DecimalString(year),
           [DigitChar((month + 1) / 10), DigitChar((month + 1) % 10)], [DigitChar(day / 10), DigitChar(day % 10)]);
  }

  /** Different days give different keys. */
  lemma KeysDistinct(y1: int, m1: int, d1: int, y2: int, m2: int, d2: int)
    requires 0 <= m1 < 12 && 0 <= d1 < 100 && 0 <= m2 < 12 && 0 <= d2 < 100
    requires (y1, m1, d1) != (y2, m2, d2)
    ensures DateKey(y1, m1, d1) != DateKey(y2, m2, d2)
  {
    KeyRoundTrip(y1, m1, d1);
    KeyRoundTrip(y2, m2, d2);
  }

  /** Keys of days in a year with four digits are ten characters long. */
  lemma KeyLength(year: int, month: int, day: int)
    requires 1000 <= year <= 9999 && 0 <= month < 12 && 0 <= day < 100
    ensures |DateKey(year, month, day)| == 10
  {
    FourDigitYear(year);
    TwoDigits(month + 1);
    TwoDigits(day);
  }

  /** The days of one month have pairwise distinct keys. */
  lemma MonthKeysDistinct(year: int, month: int, n: nat)
    requires 0 <= month < 12 && n < 100
    ensures forall i, j :: 1 <= i < j <= n ==> DateKey(year, month, i) != DateKey(year, month, j)
  {
    forall i, j | 1 <= i < j <= n
      ensures DateKey(year, month, i) != DateKey(year, month, j)
    {
      KeysDistinct(year, month, i, year, month, j);
    }
  }

  // ---------------------------------------------------------------------
  // Cells

  /** The cell's colouring: completed, today's outline, or plain. */
  datatype Highlight = Completed | Today | Plain

  /** The cell's text: a check mark or the day number. */
  datatype Label = CheckMark | DayNumber(day: int)

  datatype Cell = Cell(day: int, key: string, progress: int, highlight: Highlight, text: Label)

  /** The cell for one day. `today` comes from the clock as a date string;
      nothing relates it to `year` and `month`, which are read in local time. */
  function DayCell(year: int, month: int, day: int,
                   completedDates: seq<string>, progressByDate: map<string, int>,
                   today: string): (c: Cell)
    ensures c.day == day && c.key == DateKey(year, month, day)
    ensures c.highlight.Completed? <==> c.key in completedDates
    ensures c.highlight.Today? <==> c.key !in completedDates && c.key == today
    ensures c.key in progressByDate ==> c.progress == progressByDate[c.key]
    ensures c.key !in progressByDate ==> c.progress == 0
    ensures c.text.CheckMark? <==> c.key in completedDates
    ensures c.key !in completedDates ==> c.text == DayNumber(day)
  {
    var dateStr := DateKey(year, month, day);
    var completed := dateStr in completedDates;
    var isToday := dateStr == today;
    var progress := CountFor(progressByDate, dateStr);
    Cell(day, dateStr, progress,
         if completed then Completed else if isToday then Today else Plain,
         if completed then CheckMark else DayNumber(day))
  }

  /** The whole month: one cell per day, in order, each with its own key, so
      at most one cell carries today's outline. */
  function MonthCells(year: int, month: int,
                      completedDates: seq<string>, progressByDate: map<string, int>,
                      today: string): (cells: seq<Cell>)
    requires 0 <= month < 12
    ensures |cells| == DaysInMonth(year, month)
    ensures forall i :: 0 <= i < |cells| ==>
              cells[i] == DayCell(year, month, i + 1, completedDates, progressByDate, today)
    ensures forall i, j :: 0 <= i < j < |cells| ==> cells[i].key != cells[j].key
    ensures forall i, j :: (0 <= i < |cells| && 0 <= j < |cells|
              && cells[i].highlight.Today? && cells[j].highlight.Today?) ==> i == j
  {
    var days := Days(DaysInMonth(year, month));
    MonthKeysDistinct(year, month, |days|);
    seq(|days|, i requires 0 <= i < |days| =>
          DayCell(year, month, days[i], completedDates, progressByDate, today))
  }
}

=== FILE: daily_progress.dfy ===
/** The page that wires timer completions into the daily progress record:
    per-date counts of completed workouts, the dates on which the target was
    reached, and the daily target. */
module DailyProgress {
  import opened Wrappers
  import opened JsMath
  import opened ProgressMap
  import TargetWorkout

  /** The target a fresh page starts with. */
  const DefaultTarget := 5

  datatype Store = Store(
    progressByDate: map<string, int>,
    completedDates: seq<string>,
    targetSets: int)

  predicate NoDuplicates(dates: seq<string>) {
    forall i, j :: 0 <= i < j < |dates| ==> dates[i] != dates[j]
  }

  /** The state the page starts with before anything is read back. */
  function InitialStore(): (s: Store)
    ensures s.targetSets == DefaultTarget
    ensures s.progressByDate == map[] && s.completedDates == []
  {
    Store(map[], [], DefaultTarget)
  }

  /** The start-up read of the persisted progress and target. Each replaces
      the default only when a value was stored; the completed dates are not
      persisted and always start empty. */
  function Load(savedProgress: Option<map<string, int>>, savedTarget: Option<int>): (s: Store)
    ensures s.completedDates == []
    ensures s.progressByDate == (if savedProgress.Some? then savedProgress.value else map[])
    ensures s.targetSets == (if savedTarget.Some? then savedTarget.value else DefaultTarget)
  {
    var s0 := InitialStore();
    var s1 := if savedProgress.Some? then s0.(progressByDate := savedProgress.value) else s0;
    if savedTarget.Some? then s1.(targetSets := savedTarget.value) else s1
  }

  /** With nothing stored, the start-up read leaves the initial state. */
  lemma LoadNothingStored()
    ensures Load(None, None) == InitialStore()
  {
  }

  /** What the page writes back (the progress map and the target) is what the
      next start-up reads; only the completed dates are lost. */
  lemma PersistRoundTrip(s: Store)
    ensures Load(Some(s.progressByDate), Some(s.targetSets)) == s.(completedDates := [])
  {
  }

  /** `handleWorkoutComplete`: one more workout done today, the count
      clamped to the target, and today marked complete when this workout
      brings the count exactly to the target. */
  function RecordCompletion(s: Store, today: string): (r: Store)
    ensures r.targetSets == s.targetSets
    ensures r.progressByDate.Keys == s.progressByDate.Keys + {today}
    ensures r.progressByDate[today] == Min(CountFor(s.progressByDate, today) + 1, s.targetSets)
    ensures r.progressByDate[today] <= s.targetSets
    ensures forall d :: d in s.progressByDate && d != today ==> r.progressByDate[d] == s.progressByDate[d]
    ensures CountFor(s.progressByDate, today) + 1 == s.targetSets && today !in s.completedDates
            ==> r.completedDates == s.completedDates + [today]
    ensures !(CountFor(s.progressByDate, today) + 1 == s.targetSets && today !in s.completedDates)
            ==> r.completedDates == s.completedDates
    ensures NoDuplicates(s.completedDates) ==> NoDuplicates(r.completedDates)
  {
    var todayProgress := CountFor(s.progressByDate, today);
    var updated := s.progressByDate[today := Min(todayProgress + 1, s.targetSets)];
    var dates := if todayProgress + 1 == s.targetSets && today !in s.completedDates
                 then s.completedDates + [today] else s.completedDates;
    Store(updated, dates, s.targetSets)
  }

  /** n completions recorded one after another on the same day. */
  function RecordMany(s: Store, today: string, n: nat): Store
    decreases n
  {
    if n == 0 then s else RecordCompletion(RecordMany(s, today, n - 1), today)
  }

  /** Starting from no record for the day with a target t >= 1: after k
      completions the count is min(k, t), the earlier completed dates are
      kept, and the day is appended exactly once from the t-th completion
      on, and not before. */
  lemma {:induction false} RecordManyFromEmpty(progress: map<string, int>, dates: seq<string>, t: int, today: string, k: nat)
    requires t >= 1 && today !in progress && today !in dates
    ensures var r := RecordMany(Store(progress, dates, t), today, k);
            && CountFor(r.progressByDate, today) == Min(k, t)
            && r.completedDates == dates + (if k >= t then [today] else [])
            && r.targetSets == t
  {
    if k > 0 {
      RecordManyFromEmpty(progress, dates, t, today, k - 1);
      var prev := RecordMany(Store(progress, dates, t), today, k - 1);
      assert today !in prev.completedDates <== k - 1 < t;
    }
  }

  /** The fresh-page case: after exactly `target` completions today's count
      is the target and today appears once; any further completions change
      neither. */
  lemma TargetReached(t: int, today: string, extra: nat)
    requires t >= 1
    ensures var r := RecordMany(Store(map[], [], t), today, t + extra);
            r.progressByDate[today] == t && r.completedDates == [today]
  {
    RecordManyFromEmpty(map[], [], t, today, t + extra);
    assert t + extra > 0;
  }

  /** A day whose count already reached the target is never added to the
      completed dates again. Since those are not persisted, a day completed
      before a reload does not show as completed after it, as long as the
      target is not raised above that count. */
  lemma NoMarkAfterTarget(s: Store, today: string)
    requires CountFor(s.progressByDate, today) >= s.targetSets
    ensures RecordCompletion(s, today).completedDates == s.completedDates
    ensures RecordCompletion(s, today).progressByDate[today] == s.targetSets
  {
  }

  /** The limit of `NoMarkAfterTarget` across a reload: once the target is
      raised by one with the "+" control, the next workout brings the count
      exactly to the new target and marks the day completed again. */
  lemma RaisedTargetMarksAgain(progress: map<string, int>, today: string)
    requires today in progress
    ensures var s := Load(Some(progress), Some(progress[today]));
            var raised := s.(targetSets := TargetWorkout.Increment(s.targetSets));
            RecordCompletion(raised, today).completedDates == [today]
  {
  }
}

=== FILE: interval_timer.dfy ===
/** The interval timer of both GymTimer components: WORK and REST phases
    counted down second by second across a number of sets.

    One machine covers both variants. The top-level component takes the set
    count as a prop and tracks no calories (`BaseTimer`); the client component
    fixes five sets and accrues an estimate of the calories burned during WORK
    (`ClientTimer`). The React effects that drive the component become
    discrete steps: `Tick` is the one-second interval callback, `Transition`
    is the effect that fires once the countdown sits at zero while running. */
module IntervalTimer {
  import opened Wrappers
  import opened JsMath

  const WorkSeconds := 45
  const RestSeconds := 15
  /** How often, in seconds, a WORK phase credits partial calories. */
  const CalorieInterval := 5
  /** The client variant's fixed `TOTAL_SETS`. */
  const ClientTotalSets := 5

  datatype Phase = Work | Rest

  /** The set count and, for the calorie-tracking variant, the calories one
      full WORK phase is meant to burn (`exercise.caloriesPerSet`). */
  datatype Config = Config(totalSets: int, caloriesPerSet: Option<int>)

  /** The state the component keeps in `useState` hooks. `calories` is
      `totalCaloriesBurned`; the variant without calorie tracking keeps it 0. */
  datatype TimerState = TimerState(
    phase: Phase,
    seconds: int,
    currentSet: int,
    running: bool,
    calories: int)

  /** One call of `onWorkoutComplete`, with the argument it receives: the
      calorie total in the client variant, nothing in the base variant. */
  datatype Completion = Completion(calories: Option<int>)

  /** A state together with the completion callback a step invoked, if any. */
  datatype Step = Step(state: TimerState, completed: Option<Completion>)

  function BaseTimer(totalSets: int): Config {
    Config(totalSets, None)
  }

  function ClientTimer(caloriesPerSet: int): Config {
    Config(ClientTotalSets, Some(caloriesPerSet))
  }

  /** `totalForPhase`: the length of a phase in seconds. */
  function PhaseTotal(p: Phase): (r: int)
    ensures r == WorkSeconds || r == RestSeconds
    ensures r > 0
  {
    match p
    case Work => WorkSeconds
    case Rest => RestSeconds
  }

  predicate WellFormed(cfg: Config) {
    && cfg.totalSets >= 1
    && (cfg.caloriesPerSet.Some? ==> cfg.caloriesPerSet.value >= 0)
  }

  /** The state invariant: the set counter stays within 1..totalSets, the
      countdown within 0..the phase's length, and the variant without calorie
      tracking never accrues any; calories are never negative. */
  predicate Valid(cfg: Config, st: TimerState) {
    && 1 <= st.currentSet <= cfg.totalSets
    && 0 <= st.seconds <= PhaseTotal(st.phase)
    && st.calories >= 0
    && (cfg.caloriesPerSet.None? ==> st.calories == 0)
  }

  /** The state `reset` produces and the component starts in. */
  const Initial := TimerState(Work, WorkSeconds, 1, false, 0)

  /** Calories the interval callback credits when it runs with `s` seconds
      left: a five-second share when the countdown lands on a positive
      multiple of five, and a one-second share on the last second of WORK. */
  function TickGain(cfg: Config, phase: Phase, s: int): (g: int)
    ensures cfg.caloriesPerSet.None? || phase.Rest? ==> g == 0
    ensures WellFormed(cfg) ==> g >= 0
  {
    match cfg.caloriesPerSet
    case None => 0
    case Some(c) =>
      var next := s - 1;
      (if phase.Work? && s > 0 && next > 0 && next % CalorieInterval == 0
       then RoundDiv(c * CalorieInterval, WorkSeconds) else 0)
      + (if phase.Work? && s == 1 then RoundDiv(c, WorkSeconds) else 0)
  }

  /** The interval callback: count down one second, floored at zero, and
      credit calories in WORK. */
  function Tick(cfg: Config, st: TimerState): (r: TimerState)
    ensures r.seconds >= 0
    ensures st.seconds > 0 ==> r.seconds == st.seconds - 1
    ensures st.seconds <= 0 ==> r.seconds == 0
    ensures r.phase == st.phase && r.currentSet == st.currentSet && r.running == st.running
    ensures st.phase.Rest? ==> r.calories == st.calories
    ensures cfg.caloriesPerSet.Some? && st.phase.Work? && st.seconds - 1 > 0
            && (st.seconds - 1) % CalorieInterval == 0
            ==> r.calories == st.calories + RoundDiv(5 * cfg.caloriesPerSet.value, 45)
    ensures cfg.caloriesPerSet.Some? && st.phase.Work? && st.seconds == 1
            ==> r.calories == st.calories + RoundDiv(cfg.caloriesPerSet.value, 45)
    ensures !(st.seconds - 1 > 0 && (st.seconds - 1) % CalorieInterval == 0) && st.seconds != 1
            ==> r.calories == st.calories
    ensures WellFormed(cfg) ==> r.calories >= st.calories
    ensures WellFormed(cfg) && Valid(cfg, st) ==> Valid(cfg, r)
  {
    st.(seconds := if st.seconds > 0 then st.seconds - 1 else 0,
        calories := st.calories + TickGain(cfg, st.phase, st.seconds))
  }

  /** The argument passed to `onWorkoutComplete`. */
  function Report(cfg: Config, calories: int): Completion {
    Completion(if cfg.caloriesPerSet.Some? then Some(calories) else None)
  }

  /** The phase/set effect: once the countdown is at zero while running, WORK
      gives way to REST, REST gives way to the next set's WORK, and after the
      last set's REST the timer stops and reports completion. */
  function Transition(cfg: Config, st: TimerState): (r: Step)
    ensures !(st.running && st.seconds <= 0) ==> r == Step(st, None)
    ensures r.state.calories == st.calories
    ensures r.completed.Some? ==> st.running && st.seconds <= 0 && st.phase.Rest?
    ensures st.running && st.seconds <= 0 && st.phase.Rest? && st.currentSet >= cfg.totalSets
            ==> r.completed.Some?
    ensures r.completed.Some? ==>
              r.completed.value == Report(cfg, st.calories) && r.state == st.(running := false)
    ensures st.running && st.seconds <= 0 && st.phase.Work? ==>
              r.state == st.(phase := Rest, seconds := RestSeconds)
    ensures st.running && st.seconds <= 0 && st.phase.Rest? && st.currentSet < cfg.totalSets ==>
              r.state == st.(phase := Work, seconds := WorkSeconds, currentSet := st.currentSet + 1)
    ensures Valid(cfg, st) ==> Valid(cfg, r.state)
  {
    if !st.running || st.seconds > 0 then Step(st, None)
    else if st.phase.Work? then
      Step(st.(phase := Rest, seconds := RestSeconds), None)
    else if st.currentSet < cfg.totalSets then
      Step(st.(currentSet := st.currentSet + 1, phase := Work, seconds := WorkSeconds), None)
    else
      Step(st.(running := false), Some(Report(cfg, st.calories)))
  }

  /** The start/pause button: flips `running`, unless the button is disabled
      because the set counter has passed the set count. */
  function Toggle(cfg: Config, st: TimerState): (r: TimerState)
    ensures st.currentSet <= cfg.totalSets ==> r.running == !st.running
    ensures st.currentSet > cfg.totalSets ==> r == st
    ensures r.(running := st.running) == st
    ensures Valid(cfg, st) ==> Valid(cfg, r)
  {
    if st.currentSet > cfg.totalSets then st else st.(running := !st.running)
  }

  /** The reset button. */
  function Reset(cfg: Config, st: TimerState): (r: TimerState)
    ensures r.phase.Work? && r.seconds == PhaseTotal(Work)
    ensures r.currentSet == 1 && !r.running && r.calories == 0
    ensures WellFormed(cfg) ==> Valid(cfg, r)
  {
    Initial
  }

  /** The skip button: forces the current phase to its end by the same
      phase/set rule as `Transition`, whether or not the timer runs, but after
      the last set's REST it only stops the timer and reports nothing. */
  function Skip(cfg: Config, st: TimerState): (r: TimerState)
    ensures r.calories == st.calories
    ensures st.phase.Work? ==> r == st.(phase := Rest, seconds := RestSeconds)
    ensures st.phase.Rest? && st.currentSet < cfg.totalSets ==>
              r == st.(phase := Work, seconds := WorkSeconds, currentSet := st.currentSet + 1)
    ensures st.phase.Rest? && st.currentSet >= cfg.totalSets ==> r == st.(running := false)
    ensures Valid(cfg, st) ==> Valid(cfg, r)
  {
    if st.phase.Work? then
      st.(phase := Rest, seconds := RestSeconds)
    else if st.currentSet < cfg.totalSets then
      st.(currentSet := st.currentSet + 1, phase := Work, seconds := WorkSeconds)
    else
      st.(running := false)
  }

  /** The progress figure: the share of the current phase already elapsed,
      as a whole percentage. */
  function Percent(st: TimerState): (r: int)
    ensures 0 <= r <= 100
    ensures st.seconds >= PhaseTotal(st.phase) ==> r == 0
    ensures st.seconds <= 0 ==> r == 100
    ensures 0 <= st.seconds <= PhaseTotal(st.phase) ==>
              var t := PhaseTotal(st.phase);
              2 * t * r <= 200 * (t - st.seconds) + t < 2 * t * r + 2 * t
  {
    var total := PhaseTotal(st.phase);
    if total == 0 then 0
    else Max(0, Min(100, RoundDiv((total - st.seconds) * 100, total)))
  }

  /** Pressing start/pause twice restores the state. */
  lemma ToggleTwice(cfg: Config, st: TimerState)
    ensures Toggle(cfg, Toggle(cfg, st)) == st
  {
  }

  /** Reset gives the same state whatever came before, and is idempotent. */
  lemma ResetIdempotent(cfg: Config, st1: TimerState, st2: TimerState)
    ensures Reset(cfg, st1) == Reset(cfg, st2)
    ensures Reset(cfg, Reset(cfg, st1)) == Reset(cfg, st1)
  {
  }

  /** The progress figure never falls as the countdown advances within a phase. */
  lemma PercentMonotone(st: TimerState, s1: int, s2: int)
    requires s1 <= s2
    ensures Percent(st.(seconds := s2)) <= Percent(st.(seconds := s1))
  {
  }

  /** A tick in either phase never lowers the progress figure. */
  lemma TickRaisesPercent(cfg: Config, st: TimerState)
    ensures Percent(st) <= Percent(Tick(cfg, st))
  {
  }

  /** `skip` is the zero-boundary rule forced early: for a running timer at
      zero the two produce the same state, and only the natural expiry
      reports completion. */
  lemma SkipMatchesExpiry(cfg: Config, st: TimerState)
    requires st.running && st.seconds == 0
    ensures Skip(cfg, st) == Transition(cfg, st).state
    ensures Transition(cfg, st).completed.Some? <==> st.phase.Rest? && st.currentSet >= cfg.totalSets
  {
  }

  /** The calorie-tracking variant moves through phases and sets exactly like
      the base machine with five sets; only the calorie total differs. */
  lemma ClientMatchesBase(c: int, st: TimerState)
    ensures Tick(ClientTimer(c), st).(calories := st.calories) == Tick(BaseTimer(5), st)
    ensures Transition(ClientTimer(c), st).state == Transition(BaseTimer(5), st).state
    ensures Skip(ClientTimer(c), st) == Skip(BaseTimer(5), st)
    ensures Toggle(ClientTimer(c), st) == Toggle(BaseTimer(5), st)
  {
  }
}

=== FILE: jsmath.dfy ===
/** Integer models of the JavaScript `Math` functions the timer uses. */
module JsMath {

  /** `Math.round(n / d)` for a positive integer divisor: the integer nearest to
      the rational n/d, halves rounded towards positive infinity. */
  function RoundDiv(n: int, d: int): (r: int)
    requires d > 0
    ensures 2 * d * r <= 2 * n + d < 2 * d * r + 2 * d
    ensures n >= 0 ==> r >= 0
  {
    var q := (2 * n + d) / (2 * d);
    assert 2 * d * q <= 2 * n + d < 2 * d * q + 2 * d by {
      var m := (2 * n + d) % (2 * d);
      assert 2 * n + d == (2 * d) * q + m && 0 <= m < 2 * d;
    }
    q
  }

  function Min(a: int, b: int): (r: int)
    ensures r <= a && r <= b
    ensures r == a || r == b
  {
    if a <= b then a else b
  }

  function Max(a: int, b: int): (r: int)
    ensures r >= a && r >= b
    ensures r == a || r == b
  {
    if a >= b then a else b
  }
}

=== FILE: progress_map.dfy ===
/** The per-date progress record shared by the page and the calendar. */
module ProgressMap {

  /** `progressByDate[date] || 0`: the count recorded for a date, 0 when
      there is none. */
  function CountFor(progress: map<string, int>, date: string): (n: int)
    ensures date !in progress ==> n == 0
    ensures date in progress ==> n == progress[date]
  {
    if date in progress then progress[date] else 0
  }
}

=== FILE: target_workout.dfy ===
/** The daily-target control: its "-" and "+" buttons emit a new target. */
module TargetWorkout {

  /** The "-" button: one less, but never below one. */
  function Decrement(t: int): (r: int)
    ensures r >= 1
    ensures t >= 1 ==> r <= t
    ensures t > 1 ==> r + 1 == t
    ensures t <= 1 ==> r == 1
  {
    if t - 1 >= 1 then t - 1 else 1
  }

  /** The "+" button: one more, undone by "-" from any target of at least one. */
  function Increment(t: int): (r: int)
    ensures r == t + 1
    ensures t >= 1 ==> Decrement(r) == t
  {
    t + 1
  }

  /** "-" followed by "+" restores any target above one; at one it raises
      the target to two. */
  lemma DecrementThenIncrement(t: int)
    requires t >= 1
    ensures Increment(Decrement(t)) == if t > 1 then t else 2
  {
  }
}

=== FILE: timer_run.dfy ===
/** The timer left running without interruption: the interval callback fires
    once a second and, right after the render it causes, the phase/set effect
    gets its chance to fire. */
module TimerRun {
  import opened Wrappers
  import opened JsMath
  import opened IntervalTimer

  /** One elapsed second. No interval is installed while paused, so nothing
      happens then; otherwise the tick is followed by the phase/set effect. */
  function Second(cfg: Config, st: TimerState): (r: Step)
    ensures !st.running ==> r == Step(st, None)
    ensures WellFormed(cfg) && Valid(cfg, st) ==> Valid(cfg, r.state)
    ensures WellFormed(cfg) ==> r.state.calories >= st.calories
    ensures r.completed.Some? ==> !r.state.running && r.completed.value == Report(cfg, r.state.calories)
  {
    if !st.running then Step(st, None) else Transition(cfg, Tick(cfg, st))
  }

  /** The state after some seconds, with the completion callbacks invoked on
      the way, in order. */
  datatype Trace = Trace(state: TimerState, completions: seq<Completion>)

  function Run(cfg: Config, st: TimerState, k: nat): Trace
    decreases k
  {
    if k == 0 then Trace(st, [])
    else
      var step := Second(cfg, st);
      var t := Run(cfg, step.state, k - 1);
      Trace(t.state, ToSeq(step.completed) + t.completions)
  }

  /** The state after pressing reset and then start. */
  function Started(cfg: Config): (r: TimerState)
    ensures cfg.totalSets >= 1 ==> r == TimerState(Work, WorkSeconds, 1, true, 0)
  {
    Toggle(cfg, Reset(cfg, Initial))
  }

  /** Running a seconds and then b more is running a + b seconds. */
  lemma {:induction false} RunAdd(cfg: Config, st: TimerState, a: nat, b: nat)
    ensures Run(cfg, st, a + b).state == Run(cfg, Run(cfg, st, a).state, b).state
    ensures Run(cfg, st, a + b).completions
            == Run(cfg, st, a).completions + Run(cfg, Run(cfg, st, a).state, b).completions
    decreases a
  {
    if a > 0 {
      var step := Second(cfg, st);
      RunAdd(cfg, step.state, a - 1, b);
      assert Run(cfg, st, a + b) == Run(cfg, st, (a - 1 + b) + 1);
    }
  }

  /** The invariant holds for every state an uninterrupted run reaches. */
  lemma {:induction false} RunPreservesValid(cfg: Config, st: TimerState, k: nat)
    requires WellFormed(cfg) && Valid(cfg, st)
    ensures Valid(cfg, Run(cfg, st, k).state)
    ensures Run(cfg, st, k).state.calories >= st.calories
    decreases k
  {
    if k > 0 {
      RunPreservesValid(cfg, Second(cfg, st).state, k - 1);
    }
  }

  /** A stopped timer stays as it is and reports nothing. */
  lemma {:induction false} RunStopped(cfg: Config, st: TimerState, k: nat)
    requires !st.running
    ensures Run(cfg, st, k) == Trace(st, [])
  {
    if k > 0 {
      RunStopped(cfg, st, k - 1);
    }
  }

  /** The calories credited by the last s ticks of a phase: the sum of
      `TickGain` over the seconds s, s-1, ..., 1. */
  function PhaseGain(cfg: Config, phase: Phase, s: nat): int
  {
    if s == 0 then 0 else PhaseGain(cfg, phase, s - 1) + TickGain(cfg, phase, s)
  }

  /** Closed form of the calories credited over the last s seconds of WORK:
      one five-second share for every positive multiple of five the countdown
      lands on, and one one-second share for the final second. */
  lemma {:induction false} PhaseGainWork(cfg: Config, s: nat)
    requires cfg.caloriesPerSet.Some? && s >= 1
    ensures var c := cfg.caloriesPerSet.value;
            PhaseGain(cfg, Work, s) == ((s - 1) / CalorieInterval) * RoundDiv(5 * c, 45) + RoundDiv(c, 45)
  {
    var r5 := RoundDiv(5 * cfg.caloriesPerSet.value, 45);
    if s == 1 {
      assert PhaseGain(cfg, Work, 1) == PhaseGain(cfg, Work, 0) + TickGain(cfg, Work, 1);
    } else {
      PhaseGainWork(cfg, s - 1);
      var q := (s - 2) / CalorieInterval;
      if (s - 1) % CalorieInterval == 0 {
        assert (s - 1) / CalorieInterval == q + 1;
        assert TickGain(cfg, Work, s) == r5;
        assert (q + 1) * r5 == q * r5 + r5;
      } else {
        assert (s - 1) / CalorieInterval == q;
        assert TickGain(cfg, Work, s) == 0;
      }
    }
  }

  /** The gain depends only on the calorie rate, not on the set count. */
  lemma {:induction false} PhaseGainRate(cfg1: Config, cfg2: Config, phase: Phase, s: nat)
    requires cfg1.caloriesPerSet == cfg2.caloriesPerSet
    ensures PhaseGain(cfg1, phase, s) == PhaseGain(cfg2, phase, s)
  {
    if s > 0 {
      PhaseGainRate(cfg1, cfg2, phase, s - 1);
    }
  }

  /** No calories are credited in REST, nor by the variant without calorie
      tracking. */
  lemma {:induction false} PhaseGainZero(cfg: Config, phase: Phase, s: nat)
    requires phase.Rest? || cfg.caloriesPerSet.None?
    ensures PhaseGain(cfg, phase, s) == 0
  {
    if s > 0 {
      PhaseGainZero(cfg, phase, s - 1);
    }
  }

  /** The calories one uninterrupted WORK phase credits. */
  function WorkPhaseCalories(cfg: Config): int {
    PhaseGain(cfg, Work, WorkSeconds)
  }

  /** A full WORK phase credits 8 five-second shares and one one-second
      share: 8 * round(5c/45) + round(c/45); nothing without calorie
      tracking, and never a negative amount. */
  lemma WorkPhaseCaloriesValue(cfg: Config)
    ensures cfg.caloriesPerSet.None? ==> WorkPhaseCalories(cfg) == 0
    ensures cfg.caloriesPerSet.Some? ==>
              WorkPhaseCalories(cfg)
              == 8 * RoundDiv(5 * cfg.caloriesPerSet.value, 45) + RoundDiv(cfg.caloriesPerSet.value, 45)
    ensures WellFormed(cfg) ==> WorkPhaseCalories(cfg) >= 0
  {
    if cfg.caloriesPerSet.None? {
      PhaseGainZero(cfg, Work, WorkSeconds);
    } else {
      PhaseGainWork(cfg, WorkSeconds);
    }
  }

  /** While the countdown has not reached zero, k seconds lower it by k,
      credit the phase's gain for those seconds and report nothing. */
  lemma {:induction false} CountDown(cfg: Config, st: TimerState, k: nat)
    requires st.running && k < st.seconds
    ensures Run(cfg, st, k) == Trace(st.(seconds := st.seconds - k,
      calories := st.calories + PhaseGain(cfg, st.phase, st.seconds)
                              - PhaseGain(cfg, st.phase, st.seconds - k)), [])
    decreases k
  {
    if k > 0 {
      var next := Tick(cfg, st);
      assert next.seconds == st.seconds - 1 >= 1;
      assert Second(cfg, st) == Step(next, None);
      CountDown(cfg, next, k - 1);
      assert PhaseGain(cfg, st.phase, st.seconds)
             == PhaseGain(cfg, st.phase, st.seconds - 1) + TickGain(cfg, st.phase, st.seconds);
    }
  }

  /** Running a phase down to zero: after exactly `seconds` seconds the
      phase/set effect fires on the state at zero with the phase's calories
      credited. */
  lemma PhaseEnd(cfg: Config, st: TimerState)
    requires st.running && st.seconds >= 1
    ensures var atZero := st.(seconds := 0, calories := st.calories + PhaseGain(cfg, st.phase, st.seconds));
            Run(cfg, st, st.seconds)
            == Trace(Transition(cfg, atZero).state, ToSeq(Transition(cfg, atZero).completed))
  {
    var s: nat := st.seconds;
    CountDown(cfg, st, s - 1);
    RunAdd(cfg, st, s - 1, 1);
    var last := Run(cfg, st, s - 1).state;
    assert last.seconds == 1;
    assert PhaseGain(cfg, st.phase, 1) == TickGain(cfg, st.phase, 1);
    assert Run(cfg, st, s) == Run(cfg, st, s - 1 + 1);
  }

  /** The state at the start of a set's WORK phase. */
  function SetStart(n: int, calories: int): TimerState {
    TimerState(Work, WorkSeconds, n, true, calories)
  }

  /** A WORK phase run from its start: 45 seconds later REST begins, one
      WORK phase's calories later, with nothing reported. */
  lemma WorkToRest(cfg: Config, st: TimerState)
    requires st.running && st.phase.Work? && st.seconds == WorkSeconds
    ensures Run(cfg, st, WorkSeconds)
            == Trace(st.(phase := Rest, seconds := RestSeconds, calories := st.calories + WorkPhaseCalories(cfg)), [])
  {
    PhaseEnd(cfg, st);
    var atZero := st.(seconds := 0, calories := st.calories + PhaseGain(cfg, Work, WorkSeconds));
    assert Transition(cfg, atZero) == Step(atZero.(phase := Rest, seconds := RestSeconds), None);
  }

  /** A REST phase run from its start: 15 seconds later the next set's WORK
      begins, or, after the last set, the timer stops and reports once; no
      calories are credited and nothing is reported earlier. */
  lemma RestToEnd(cfg: Config, st: TimerState)
    requires st.running && st.phase.Rest? && st.seconds == RestSeconds
    ensures st.currentSet < cfg.totalSets ==>
              Run(cfg, st, RestSeconds)
              == Trace(st.(phase := Work, seconds := WorkSeconds, currentSet := st.currentSet + 1), [])
    ensures st.currentSet >= cfg.totalSets ==>
              Run(cfg, st, RestSeconds) == Trace(st.(seconds := 0, running := false), [Report(cfg, st.calories)])
    ensures Run(cfg, st, RestSeconds - 1).completions == []
  {
    PhaseEnd(cfg, st);
    PhaseGainZero(cfg, Rest, RestSeconds);
    var atZero := st.(seconds := 0);
    if st.currentSet < cfg.totalSets {
      assert Transition(cfg, atZero)
             == Step(atZero.(phase := Work, seconds := WorkSeconds, currentSet := st.currentSet + 1), None);
    } else {
      assert Transition(cfg, atZero) == Step(atZero.(running := false), Some(Report(cfg, st.calories)));
    }
    CountDown(cfg, st, RestSeconds - 1);
  }

  /** A set that is not the last one: after 45 + 15 seconds the next set's
      WORK begins, one WORK phase's calories later, with nothing reported. */
  lemma FullSet(cfg: Config, st: TimerState)
    requires st.running && st.phase.Work? && st.seconds == WorkSeconds
    requires st.currentSet < cfg.totalSets
    ensures Run(cfg, st, WorkSeconds + RestSeconds)
            == Trace(st.(currentSet := st.currentSet + 1, calories := st.calories + WorkPhaseCalories(cfg)), [])
  {
    WorkToRest(cfg, st);
    RestToEnd(cfg, st.(phase := Rest, seconds := RestSeconds, calories := st.calories + WorkPhaseCalories(cfg)));
    RunAdd(cfg, st, WorkSeconds, RestSeconds);
  }

  /** The last set: after 45 + 15 seconds the timer stops and reports once,
      passing the calorie total. */
  lemma LastSet(cfg: Config, st: TimerState)
    requires st.running && st.phase.Work? && st.seconds == WorkSeconds
    requires st.currentSet >= cfg.totalSets
    ensures var total := st.calories + WorkPhaseCalories(cfg);
            Run(cfg, st, WorkSeconds + RestSeconds)
            == Trace(st.(phase := Rest, seconds := 0, running := false, calories := total), [Report(cfg, total)])
  {
    WorkToRest(cfg, st);
    RestToEnd(cfg, st.(phase := Rest, seconds := RestSeconds, calories := st.calories + WorkPhaseCalories(cfg)));
    RunAdd(cfg, st, WorkSeconds, RestSeconds);
  }

  /** One second before a set ends nothing has been reported. */
  lemma SetQuiet(cfg: Config, st: TimerState)
    requires st.running && st.phase.Work? && st.seconds == WorkSeconds
    ensures Run(cfg, st, WorkSeconds + RestSeconds - 1).completions == []
  {
    WorkToRest(cfg, st);
    RestToEnd(cfg, st.(phase := Rest, seconds := RestSeconds, calories := st.calories + WorkPhaseCalories(cfg)));
    RunAdd(cfg, st, WorkSeconds, RestSeconds - 1);
  }

  /** The calories n full WORK phases credit, one phase at a time. */
  function CaloriesOverSets(cfg: Config, n: nat): int {
    if n == 0 then 0 else CaloriesOverSets(cfg, n - 1) + WorkPhaseCalories(cfg)
  }

  lemma {:induction false} CaloriesOverSetsProduct(cfg: Config, n: nat)
    ensures CaloriesOverSets(cfg, n) == n * WorkPhaseCalories(cfg)
  {
    if n > 0 {
      CaloriesOverSetsProduct(cfg, n - 1);
    }
  }

  /** The seconds n whole sets take: a WORK phase of 45 and a REST phase
      of 15 each. */
  function Duration(n: nat): nat {
    60 * n
  }

  /** The state and report in which a run of the remaining sets ends. */
  function Finished(cfg: Config, calories: int): Trace {
    Trace(TimerState(Rest, 0, cfg.totalSets, false, calories), [Report(cfg, calories)])
  }

  /** Prefixing a run with 60 seconds that report nothing keeps its
      completions and end state. */
  lemma PrependQuiet(cfg: Config, st: TimerState, next: TimerState, later: nat)
    requires Run(cfg, st, WorkSeconds + RestSeconds) == Trace(next, [])
    ensures Run(cfg, st, WorkSeconds + RestSeconds + later) == Run(cfg, next, later)
  {
    RunAdd(cfg, st, WorkSeconds + RestSeconds, later);
  }

  /** A set that is not the last one, in front of a run of the following
      sets that ends the workout, ends it one set's time and one WORK phase's
      calories later. */
  lemma OneMoreSet(cfg: Config, st: TimerState, sets: nat)
    requires st.running && st.phase.Work? && st.seconds == WorkSeconds
    requires st.currentSet < cfg.totalSets && sets >= 2
    requires var next := st.(currentSet := st.currentSet + 1, calories := st.calories + WorkPhaseCalories(cfg));
             Run(cfg, next, Duration(sets - 1)) == Finished(cfg, next.calories + CaloriesOverSets(cfg, sets - 1))
    ensures Run(cfg, st, Duration(sets)) == Finished(cfg, st.calories + CaloriesOverSets(cfg, sets))
  {
    var next := st.(currentSet := st.currentSet + 1, calories := st.calories + WorkPhaseCalories(cfg));
    FullSet(cfg, st);
    var later := Duration(sets - 1);
    assert Duration(sets) == WorkSeconds + RestSeconds + later;
    PrependQuiet(cfg, st, next, later);
  }

  /** From the start of a set's WORK phase the remaining sets take exactly
      60 seconds each and end with the timer stopped and one report, one WORK
      phase's calories added per remaining set. */
  lemma {:induction false} RemainingSets(cfg: Config, st: TimerState)
    requires st.running && st.phase.Work? && st.seconds == WorkSeconds
    requires 1 <= st.currentSet <= cfg.totalSets
    ensures var sets := cfg.totalSets - st.currentSet + 1;
            Run(cfg, st, Duration(sets)) == Finished(cfg, st.calories + CaloriesOverSets(cfg, sets))
    decreases cfg.totalSets - st.currentSet
  {
    var sets := cfg.totalSets - st.currentSet + 1;
    if st.currentSet == cfg.totalSets {
      LastSet(cfg, st);
      assert CaloriesOverSets(cfg, 1) == WorkPhaseCalories(cfg);
    } else {
      RemainingSets(cfg, st.(currentSet := st.currentSet + 1, calories := st.calories + WorkPhaseCalories(cfg)));
      OneMoreSet(cfg, st, sets);
    }
  }

  /** ... and up to one second before that end nothing is reported. */
  lemma {:induction false} RemainingSetsQuiet(cfg: Config, st: TimerState)
    requires st.running && st.phase.Work? && st.seconds == WorkSeconds
    requires 1 <= st.currentSet <= cfg.totalSets
    ensures Run(cfg, st, Duration(cfg.totalSets - st.currentSet + 1) - 1).completions == []
    decreases cfg.totalSets - st.currentSet
  {
    var sets := cfg.totalSets - st.currentSet + 1;
    if st.currentSet == cfg.totalSets {
      SetQuiet(cfg, st);
    } else {
      var next := st.(currentSet := st.currentSet + 1, calories := st.calories + WorkPhaseCalories(cfg));
      FullSet(cfg, st);
      RemainingSetsQuiet(cfg, next);
      var later := Duration(sets - 1) - 1;
      assert Duration(sets) - 1 == WorkSeconds + RestSeconds + later;
      PrependQuiet(cfg, st, next, later);
      assert Run(cfg, st, Duration(sets) - 1) == Run(cfg, next, later);
    }
  }

  /** The completions of a shorter run are a prefix of a longer one's. */
  lemma CompletionsGrow(cfg: Config, st: TimerState, k: nat, m: nat)
    requires k <= m
    ensures Run(cfg, st, k).completions <= Run(cfg, st, m).completions
  {
    RunAdd(cfg, st, k, m - k);
  }

  /** From reset and start, an uninterrupted run reaches the completion
      callback after exactly totalSets * (45 + 15) seconds and calls it once,
      with totalSets WORK phases' worth of calories. */
  lemma WholeWorkout(cfg: Config)
    requires cfg.totalSets >= 1
    ensures Run(cfg, Started(cfg), Duration(cfg.totalSets))
            == Finished(cfg, cfg.totalSets * WorkPhaseCalories(cfg))
  {
    var st := Started(cfg);
    assert st == SetStart(1, 0);
    RemainingSets(cfg, st);
    CaloriesOverSetsProduct(cfg, cfg.totalSets);
  }

  /** ... and calls it at no earlier second. */
  lemma NoEarlyCompletion(cfg: Config, k: nat)
    requires cfg.totalSets >= 1 && k < Duration(cfg.totalSets)
    ensures Run(cfg, Started(cfg), k).completions == []
  {
    var st := Started(cfg);
    assert st == SetStart(1, 0);
    RemainingSetsQuiet(cfg, st);
    CompletionsGrow(cfg, st, k, Duration(cfg.totalSets) - 1);
  }

  /** After completion nothing more happens while the timer is left alone. */
  lemma QuietAfterWorkout(cfg: Config, k: nat)
    requires cfg.totalSets >= 1
    ensures var end := Duration(cfg.totalSets);
            Run(cfg, Started(cfg), end + k).completions == Run(cfg, Started(cfg), end).completions
  {
    var end := Duration(cfg.totalSets);
    WholeWorkout(cfg);
    RunAdd(cfg, Started(cfg), end, k);
    RunStopped(cfg, Run(cfg, Started(cfg), end).state, k);
  }

  /** The client variant reports five WORK phases' worth of calories:
      5 * (8 * round(5c/45) + round(c/45)). */
  lemma ClientWorkoutCalories(c: int)
    ensures var total := 5 * (8 * RoundDiv(5 * c, 45) + RoundDiv(c, 45));
            Run(ClientTimer(c), Started(ClientTimer(c)), 300).completions == [Completion(Some(total))]
  {
    WholeWorkout(ClientTimer(c));
    WorkPhaseCaloriesValue(ClientTimer(c));
  }

  /** The per-phase credit falls short of `caloriesPerSet`: the seconds
      between the last five-second mark and the end of WORK are credited as a
      single second. With 10 calories per set a WORK phase credits 8, and with
      45 it credits 41. */
  lemma WorkPhaseShortfall(c: int)
    requires c == 10 || c == 45
    ensures WorkPhaseCalories(ClientTimer(c)) == if c == 10 then 8 else 41
  {
    WorkPhaseCaloriesValue(ClientTimer(c));
  }

  /** The start button is not disabled after completion, because the set
      counter never passes the set count; starting again fires the phase/set
      effect at once and reports completion a second time. */
  lemma RestartAfterWorkout(cfg: Config, calories: int)
    requires cfg.totalSets >= 1
    ensures var done := TimerState(Rest, 0, cfg.totalSets, false, calories);
            Transition(cfg, Toggle(cfg, done)) == Step(done, Some(Report(cfg, calories)))
  {
  }
}

=== FILE: wrappers.dfy ===
/** Optional values, used for absent configuration, absent callback arguments
    and absent persisted entries. */
module Wrappers {

  datatype Option<+T> = None | Some(value: T)

  /** The zero- or one-element sequence holding an optional value. */
  function ToSeq<T>(o: Option<T>): (s: seq<T>)
    ensures |s| <= 1
    ensures o.Some? <==> |s| == 1
    ensures o.Some? ==> s[0] == o.value
  {
    match o
    case None => []
    case Some(v) => [v]
  }
}
